=== FILE: README.md ===
# FBI portal: session and progression core

This project models the game logic in `app.js` of the FBI investigation portal. Everything is written as pure Dafny functions over explicit state:

- **Contact soft pressure.** Selecting an available contact makes it active. It also appends a `SYSTEM` line saying `CONNECTED: …` to the transcript and adds one to that contact's session counter. At four selections the contact becomes `UNAVAILABLE`, and later clicks on it change nothing. A case reset restores every contact, zeroes the counters and clears the transcript and the active contact. `BUSY` is declared but is never produced.
- **Transcript.** `addLine` appends one `sender: text` line. `transcriptText` joins the formatted lines with `"\n"`, in insertion order.
- **Verdict parsing.** `parseDecision` runs the regular expression `/DECISION:\s*(ACCEPT|REJECT|NEED MORE)/i` and returns the captured word upper-cased, or `""` when nothing matches. The model reproduces the engine's leftmost-match rule and its ASCII-only case folding (non-Unicode mode). It also uses the ECMAScript `\s` set: WhiteSpace plus LineTerminator.
- **Scoring.** After a verdict arrives, the file-charges handler does three things. It adds one to `accepted`, `rejected` or `needMore`. It recomputes `totalDecisions` as accepted plus rejected. It sets `convictionRate` to `accepted / max(1, totalDecisions)`.
- **Promotion.** `maybePromote` moves up one rank at most. It does so only when there are at least three decisions and the rate reaches the threshold for the current rank (0.55, 0.62, 0.70, 0.78). `rankName` clamps the index into the five-entry rank table.
- **`escapeHtml`.** It replaces `&`, then `<`, then `>`. `null` and `undefined` become `""`.

Modules follow that structure:

| module | file | contents |
|---|---|---|
| `Wrappers` | `wrappers.dfy` | `Option` |
| `Escape` | `escape.dfy` | `escapeHtml` and its one-pass reference and decoder |
| `Transcript` | `transcript.dfy` | `addLine` and `transcriptText` |
| `Search` | `search.dfy` | the leftmost-match scan of a regular-expression search |
| `Verdict` | `verdict.dfy` | `parseDecision` and the `trim` applied before it |
| `Scoring` | `scoring.dfy` | the progression record and its update |
| `Promotion` | `promotion.dfy` | `rankName`, `maybePromote` and runs of filings |
| `Contacts` | `contacts.dfy` | the roster and the soft-pressure limit |
| `Portal` | `portal.dfy` | the click, reset and file-charges handlers, and their invariants |

The conviction rate is an exact fraction, `Scoring.Ratio`. A threshold test is a cross-multiplication, and `Promotion.EligibleByCrossMultiplication` shows it is the integer test `100 * accepted >= percent * total`. The prosecutor service is a parameter: its answer is a `Portal.Reply`, either a verdict text or an error payload, and any text can come back. The dialogue service (`/api/reply`) is used only by `sendMessage`, which is not modelled.

Three behaviours of the code that are easy to misread:

- The code allows optional whitespace after `DECISION:`, because the expression contains `\s*`.
- The code returns `""` for a missing tag. `UNKNOWN` is only the notification's wording for that case (app.js:284).
- `rankIndex` itself is never clamped; only `rankName` clamps when it looks the index up. A negative `rankIndex` therefore reads an undefined threshold and is never promoted.

## Model

| member | source | states |
|---|---|---|
| Escape.ReplaceAll | app.js:85-87 | `replaceAll` with a one-character pattern: if the replacement does not contain the pattern character, none is left in the output; no character that is in neither the input nor the replacement appears |
| Escape.EscapeHtml | app.js:83-88 | `null`/`undefined` gives the empty string; the output never contains `<` or `>` |
| Escape.EscapeHtmlIsEscapeEach | app.js:83-88 | the three ordered passes equal the one-pass reference that escapes each character on its own |
| Escape.EscapeHtmlAmpersandsAreEntities | app.js:85-87 | every `&` in the output starts `&amp;`, `&lt;` or `&gt;` |
| Escape.UnescapeEscapeEach | app.js:85-87 | decoding the three entities undoes the one-pass escape |
| Escape.EscapeHtmlRoundTrip | app.js:85-87 | because `&` is replaced first, no entity is double-escaped: decoding the output gives back the input exactly |
| Escape.EscapeHtmlInjective | app.js:83-88 | distinct texts never escape to the same markup |
| Transcript.AddLine | app.js:127-130 | the log grows by exactly one entry, the old entries are kept as a prefix, and the new entry is `(sender, text)` |
| Transcript.TranscriptText | app.js:146-148 | the joined text is empty exactly when the log is empty |
| Transcript.TranscriptTextAddLine | app.js:146-148 | appending a line appends `"\n"` (unless the log was empty) and the formatted line to the old text, which is otherwise unchanged |
| Transcript.TranscriptTextGrows | app.js:146-148 | the context text sent to the services only grows: the old text is a prefix of the new |
| Transcript.SplitTranscriptText | app.js:146-148 | when no line contains a newline, splitting the text at `"\n"` gives back each `sender: text` line in insertion order |
| Search.Leftmost | app.js:288 | a non-empty result is the capture of the matcher at some position at or after the start of the search |
| Search.LeftmostNone | app.js:288 | the search finds nothing exactly when the pattern matches at no position |
| Search.LeftmostFirst | app.js:288 | a successful search returns the capture at the first matching position, and nothing matches before it |
| Search.LeftmostShift | app.js:288 | searching a text embedded in a larger one gives the same result, when the matcher agrees on the embedded positions and nothing matches after them |
| Verdict.Classify | app.js:272-274 | a word maps to no decision exactly when it is none of `ACCEPT`, `REJECT`, `NEED MORE`; otherwise the decision's spelling is the word itself |
| Verdict.ClassifySpelling | app.js:271-274 | the four returnable words and the four decisions correspond one to one |
| Verdict.Trim | app.js:265 | the trimmed text is a contiguous slice of the input, everything cut off before and after it is whitespace, and it neither starts nor ends with whitespace |
| Verdict.ParseDecision | app.js:287-290 | the result is always `ACCEPT`, `REJECT`, `NEED MORE` or `""` |
| Verdict.TagAt | app.js:288 | the matcher at one position yields `ACCEPT`, `REJECT`, `NEED MORE` or `""`, nothing else |
| Verdict.WordAt | app.js:288 | the alternation of `ACCEPT`, `REJECT` and `NEED MORE`, tried in that order, at one position; it has no contract of its own, and what it returns is stated by `Verdict.WordAtIsWord`, `Verdict.WordAtMatch` and `Verdict.CaptureUpperCased` |
| Verdict.WordAtIsWord | app.js:288 | the alternation returns `ACCEPT`, `REJECT`, `NEED MORE` or `""`, nothing else |
| Verdict.WordAtMatch | app.js:288 | whenever one of the three words matches case-insensitively at a position, the alternation returns that word, whatever the order of the alternatives |
| Verdict.TagAtMeaning | app.js:288 | the greedy matcher at a position captures word w exactly when `DECISION:`, case-insensitively, is followed by whitespace and then w, case-insensitively |
| Verdict.CaptureUpperCased | app.js:288-289 | a returned word is the upper-cased text of the capture group |
| Verdict.ParseDecisionLeftmost | app.js:287-290 | the result is `""` exactly when no position holds a tag; otherwise it is the word of the leftmost tag |
| Verdict.ParseTaggedWord | app.js:288-289 | any whitespace gap (empty included) and any letter case of the word give that word upper-cased |
| Verdict.ParseSpelledTag | app.js:288-289 | `DECISION:` followed by whitespace and an upper-case word parses to that word |
| Verdict.ParseDecisionTrim | app.js:265 | trimming the reply before parsing never changes the parsed decision |
| Scoring.ApplyDecision | app.js:271-278 | after the update, `totalDecisions` is accepted plus rejected and the rate is `accepted / max(1, total)`; the rank is untouched |
| Scoring.ApplyDecisionCounters | app.js:272-274 | a decision moves its own counter by one and leaves the other two unchanged, and an unknown decision moves none |
| Scoring.RateInUnitInterval | app.js:276-278 | the conviction rate of a consistent record lies in [0, 1] |
| Scoring.NeutralDecisionKeepsScore | app.js:274-278 | from a consistent record, `NEED MORE` or no decision leaves `totalDecisions` and the rate unchanged; only `needMore` can move. On an inconsistent stored record the total is recomputed (app.js:276), so the condition is needed |
| Scoring.UntaggedVerdictChangesNothing | app.js:271-278 | a verdict with no tag anywhere leaves a consistent record exactly as it was |
| Promotion.RankName | app.js:155-164 | the name is always in the rank table; an index inside the table selects its entry, a negative one the first, a large one the last |
| Promotion.MaybePromote | app.js:166-180 | the record is unchanged or its rank rises by exactly one; at or above the last gate nothing changes; the rank never passes the top |
| Promotion.PromotesIffEligible | app.js:171-174 | promotion happens exactly when the rank has a gate, there are at least three decisions, and the rate reaches the gate |
| Promotion.EligibleByCrossMultiplication | app.js:170-173 | for a consistent record the rate test is `100 * accepted >= percent * total` |
| Promotion.FileDecision | app.js:271-282 | one filing (count, then `maybePromote`) leaves a consistent record and raises the rank by at most one, never past the top |
| Promotion.RecordVerdict | app.js:265-282 | filing one verdict text leaves a consistent record and raises the rank by at most one; a text with no tag anywhere, on a consistent record, only re-runs `maybePromote` |
| Promotion.RecordAll | app.js:265-282 | an empty run keeps the record; after at least one filing, or from a consistent record, the record is consistent |
| Promotion.RecordAllFilesDecisions | app.js:265-282 | a run of verdict texts changes the record exactly as the run of decisions they parse to |
| Promotion.RecordAllRank | app.js:171-174 | over any run of filings the rank never falls, rises at most once per filing and stays at or below the top |
| Promotion.TopRankIsFinal | app.js:171 | once at the top rank, no run of filings changes the rank |
| Promotion.AcceptTextParses | app.js:287-290 | `DECISION: ACCEPT` parses to an accept |
| Promotion.RejectTextParses | app.js:287-290 | `DECISION: REJECT` parses to a reject |
| Promotion.ThreeAcceptDecisionsPromote | app.js:271-282 | from any record with no accepts or rejects, the first accept gives 1/1 and the second 2/2, both at the old rank; the third gives 3/3 and promotes once |
| Promotion.RejectThenAcceptDecisionsStay | app.js:271-282 | a reject then an accept give 1/2 over two decisions, which is too few to promote |
| Promotion.ThreeAcceptsPromote | app.js:265-282 | three accepting verdict texts from any record with no accepts or rejects give accepted 3, total 3, a rate of 1 and one promotion |
| Promotion.FreshThreeAcceptsPromote | app.js:265-282 | from a new player's record, three `DECISION: ACCEPT` verdicts give 3/3 and the second rank, `FIELD INVESTIGATOR` |
| Promotion.RejectThenAcceptStays | app.js:265-282 | a rejecting then an accepting verdict text, from any record with no accepts or rejects, give accepted 1, rejected 1, total 2 and a rate of 1/2, with no promotion |
| Contacts.RosterKeysDistinct | app.js:56-60 | the three contacts have distinct keys, so each counter belongs to one contact |
| Contacts.RestoreAll | app.js:302 | every contact becomes available, keeping its key and name |
| Portal.SelectContact | app.js:100-122 | clicking an unavailable contact changes nothing. Any other click makes the contact active and the signal stable, appends one `SYSTEM` `CONNECTED:` line, raises only that contact's counter by one, and keeps the record and the other contacts. The contact turns unavailable exactly when its counter reaches four |
| Portal.ResetCase | app.js:297-308 | the transcript is emptied, there is no active contact, the signal is idle, every contact is available, the three counters are zero, any other counter keeps its value, and the record is untouched |
| Portal.FileCharges | app.js:227-285 | an empty transcript only adds the notice line; an error reply adds `PROSECUTOR ERROR:` with the error or `Request failed`; a verdict is trimmed, parsed, scored and may promote; contacts, counters and the active contact are untouched |
| Portal.Initial | app.js:56-67 | at page load the transcript is empty, no contact is active, the record is the one loaded, and every roster contact is available with a counter of zero |
| Portal.InitialWf | app.js:56-67 | the page-load state satisfies the invariants: counters within the limit, unavailable exactly at the limit, nobody busy |
| Portal.SelectPreservesWf | app.js:100-122 | every click keeps the invariants |
| Portal.ResetWf | app.js:297-303 | a reset from any roster state zeroes each contact's counter, makes each available, and restores the invariants |
| Portal.CountersBounded | app.js:113-115 | no counter ever exceeds four and no contact is busy |
| Portal.LimitSelectionStillConnects | app.js:106-115 | the fourth selection still connects the call and only then makes the contact unavailable |
| Portal.SelectTimes | app.js:100-122 | repeated clicks keep the invariants |
| Portal.SelectTimesCount | app.js:113-115 | n clicks on one contact raise its counter by n up to four, and leave it unavailable exactly when four is reached |
| Portal.FifthSelectionRefused | app.js:101-105 | after a reset, four clicks make a contact unavailable and a fifth changes nothing |
| Portal.Run | app.js:100-122 | any sequence of clicks keeps the invariants |
| Portal.RunKeepsUnavailable | app.js:101-105 | an unavailable contact stays unavailable along any sequence of clicks |
| Portal.NeverBusy | app.js:100-122 | from page load, no sequence of clicks ever makes a contact busy |

## Left out

- Rendering and wiring are presentation only and are not modelled. This covers `renderContacts`, `renderTranscript`, `updateHUD`, the modal, the tabs, the boot sequence and the static case texts. It also covers `logSystem` and `setNotification`, except that a contact click records which notice it raises.
- `sendMessage` and both `fetch` calls are not modelled. The services' logic is not in this repository. The prosecutor's answer is the `Reply` parameter of `Portal.FileCharges`.
- `loadStats` and `saveStats` are not modelled: they are `localStorage` I/O. The record loaded at page start is a parameter of `Portal.Initial`. A stored value that is not a finite number is replaced by 0 (app.js:350-355), so it never reaches the record. Stored counters that are finite but negative or fractional cannot be represented, because the counters are `nat`. A fractional stored `rankIndex` passes the `Number.isFinite` test (app.js:350) but cannot be represented either, because `rankIndex` is an `int`.
- The three `prompt` dialogs of the file-charges handler are user I/O. An empty transcript is handled first (app.js:228-232), before any prompt is shown, and `Portal.FileCharges` models that case. Cancelling the target or charge-type prompt, or answering it with an empty string, returns before any state change (app.js:235, app.js:238). Cancelling the evidence-notes prompt (app.js:240) does not stop the filing: the notes are sent as `""` (app.js:252). The evidence notes only go to the remote service, so `Portal.FileCharges` does not take them.
- `nowStamp` is not modelled (it reads the clock), and neither is the `SUBMITTING…` signal that app.js:243 sets before the request. `Portal.FileCharges` gives the state after a reply has been parsed.
- `Portal.FileCharges` has no case for a request that fails outright. If `fetch` rejects or `res.json()` throws (app.js:245-256), the exception escapes the handler: the signal stays `SUBMITTING…`, no `PROSECUTOR ERROR` line is added and the record is not touched. `Reply` only covers an answer that parsed as a JSON object whose `text` is a string or missing. Other answers throw after app.js:257 has already set `STABLE`. A JSON `null` body throws at `data.error` (app.js:260) or `data.text` (app.js:265), and a truthy `text` that is not a string, such as `5`, throws at `.trim()` (app.js:265). In those cases the signal shows `STABLE`, no line is added and the record is not touched; the model has no case for them.
- `Portal.FileCharges` is modelled as one atomic step. In the source the handler awaits the reply (app.js:245), and clicks, a reset or a second filing can run in between. The reply then lands on the later state, for example an error line appended to a transcript a reset has just emptied, or `STABLE` overwriting `IDLE`. Such interleavings are not modelled.
- The conviction rate is not stored as an IEEE-754 double. The HUD's `Math.round` percentage is not modelled. An exact fraction replaces the double, so the threshold comparisons are exact. No count reachable in play is large enough for the double's rounding to change a comparison.
- Strings are sequences of Unicode scalar values, not of UTF-16 code units. For a lone surrogate or a character outside the Basic Multilingual Plane, the position arithmetic of the search therefore differs from JavaScript's.
- `Verdict.CaptureUpperCased`: upper-casing is modelled for ASCII letters only. That is everything the capture group can hold, because in non-Unicode mode `/i` never folds a non-ASCII character onto an ASCII letter.
- `Portal.SelectContact`: requires the clicked contact's key to have a counter. In the source the three counters are created at load time (app.js:63) for exactly the three roster keys, so a missing counter cannot arise.
- The signal at page load is taken to be idle. The markup that sets the first label is not part of this model.

=== FILE: contacts.dfy ===
/**
 * The contact roster and the soft-pressure rule's constants: each contact
 * has a stable key, a display name and an availability status.
 */
module Contacts {

  /** BUSY is declared and rendered, but no transition ever produces it. */
  datatype Status = Available | Busy | Unavailable

  datatype Contact = Contact(key: string, name: string, status: Status)

  /** The three roles of the case, all available at start. */
  const Roster: seq<Contact> := [
    Contact("patient", "PATIENT WITNESS", Available),
    Contact("reception", "RECEPTION SUPERVISOR", Available),
    Contact("billing", "BILLING COORDINATOR", Available)
  ]

  /** The selection count at which a contact stops accepting calls. */
  const SoftPressureLimit: nat := 4

  /** Per-contact selection counters, keyed by contact key, all zero at start. */
  const FreshSessions: map<string, nat> := map["patient" := 0, "reception" := 0, "billing" := 0]

  /** Position j of cs is the roster's contact j, whatever its current status. */
  predicate SameContactAt(cs: seq<Contact>, j: nat)
    requires j < |cs| && j < |Roster|
  {
    cs[j].key == Roster[j].key && cs[j].name == Roster[j].name
  }

  /** cs is the roster, with only statuses possibly changed. */
  predicate IsRoster(cs: seq<Contact>)
  {
    |cs| == |Roster| && forall j :: 0 <= j < |cs| ==> SameContactAt(cs, j)
  }

  /** The roster's keys are pairwise distinct, so a key names one contact. */
  lemma RosterKeysDistinct(cs: seq<Contact>, i: nat, j: nat)
    requires IsRoster(cs)
    requires i < |cs| && j < |cs| && i != j
    ensures cs[i].key != cs[j].key
  {
    assert SameContactAt(cs, i) && SameContactAt(cs, j);
    assert Roster[0].key[0] == 'p' && Roster[1].key[0] == 'r' && Roster[2].key[0] == 'b';
  }

  /** Every contact is available again; keys and names are kept. */
  function RestoreAll(cs: seq<Contact>): (r: seq<Contact>)
    ensures |r| == |cs|
    ensures forall j :: 0 <= j < |cs| ==> r[j] == cs[j].(status := Available)
  {
    if cs == [] then [] else [cs[0].(status := Available)] + RestoreAll(cs[1..])
  }
}

=== FILE: escape.dfy ===
/**
 * HTML escaping of text that the portal writes into markup (system log,
 * notifications).  The source replaces `&`, then `<`, then `>`, each with
 * `replaceAll`; `null`/`undefined` become the empty string.
 */
module Escape {
  import opened Wrappers

  const Amp: string := "&amp;"
  const Lt: string := "&lt;"
  const Gt: string := "&gt;"

  /**
   * `s.replaceAll(c, rep)` for a one-character pattern and a replacement
   * without `$` (JavaScript would expand `$&` and the like in `rep`).
   */
  function ReplaceAll(s: string, c: char, rep: string): (r: string)
    ensures c !in rep ==> c !in r
    ensures forall d :: d !in s && d !in rep ==> d !in r
  {
    if s == [] then []
    else (if s[0] == c then rep else [s[0]]) + ReplaceAll(s[1..], c, rep)
  }

  /** The three passes of the source, in the source's order. */
  function EscapeHtml(s: Option<string>): (r: string)
    ensures s == None ==> r == []
    ensures '<' !in r && '>' !in r
  {
    var t := s.GetOr("");
    ReplaceAll(ReplaceAll(ReplaceAll(t, '&', Amp), '<', Lt), '>', Gt)
  }

  /** Reference definition: each character escaped on its own, in one pass. */
  function EscapeChar(c: char): string
  {
    if c == '&' then Amp
    else if c == '<' then Lt
    else if c == '>' then Gt
    else [c]
  }

  function EscapeEach(s: string): string
  {
    if s == [] then [] else EscapeChar(s[0]) + EscapeEach(s[1..])
  }

  /** An entity the escaper produces starts at position i of t. */
  predicate EntityAt(t: string, i: nat)
  {
    || (i + |Amp| <= |t| && t[i..i + |Amp|] == Amp)
    || (i + |Lt| <= |t| && t[i..i + |Lt|] == Lt)
    || (i + |Gt| <= |t| && t[i..i + |Gt|] == Gt)
  }

  /** Every `&` in t begins one of the three entities. */
  predicate AmpersandsAreEntities(t: string)
  {
    forall i :: 0 <= i < |t| && t[i] == '&' ==> EntityAt(t, i)
  }

  /** Decoder for the three entities; every other character stands for itself. */
  function Unescape(t: string): string
  {
    if t == [] then []
    else if |t| >= |Amp| && t[..|Amp|] == Amp then "&" + Unescape(t[|Amp|..])
    else if |t| >= |Lt| && t[..|Lt|] == Lt then "<" + Unescape(t[|Lt|..])
    else if |t| >= |Gt| && t[..|Gt|] == Gt then ">" + Unescape(t[|Gt|..])
    else [t[0]] + Unescape(t[1..])
  }

  lemma {:induction false} ReplaceAllAppend(a: string, b: string, c: char, rep: string)
    ensures ReplaceAll(a + b, c, rep) == ReplaceAll(a, c, rep) + ReplaceAll(b, c, rep)
  {
    if a == [] {
      assert a + b == b;
    } else {
      assert (a + b)[0] == a[0];
      assert (a + b)[1..] == a[1..] + b;
      ReplaceAllAppend(a[1..], b, c, rep);
    }
  }

  /** A one-character string is replaced whole or kept. */
  lemma ReplaceAllSingle(c: char, d: char, rep: string)
    ensures ReplaceAll([c], d, rep) == if c == d then rep else [c]
  {
    assert [c][1..] == [];
  }

  lemma {:induction false} ReplaceAllAbsent(t: string, d: char, rep: string)
    requires d !in t
    ensures ReplaceAll(t, d, rep) == t
  {
    if t != [] {
      ReplaceAllAbsent(t[1..], d, rep);
    }
  }

  /** The three passes on a one-character string give that character's escape. */
  lemma EscapeOneChar(c: char)
    ensures ReplaceAll(ReplaceAll(ReplaceAll([c], '&', Amp), '<', Lt), '>', Gt) == EscapeChar(c)
  {
    ReplaceAllSingle(c, '&', Amp);
    if c == '&' {
      ReplaceAllAbsent(Amp, '<', Lt);
      ReplaceAllAbsent(Amp, '>', Gt);
    } else {
      ReplaceAllSingle(c, '<', Lt);
      if c == '<' {
        ReplaceAllAbsent(Lt, '>', Gt);
      } else {
        ReplaceAllSingle(c, '>', Gt);
      }
    }
  }

  /** The three-pass escaper agrees with the one-pass reference on every input. */
  lemma {:induction false} EscapeHtmlIsEscapeEach(s: string)
    ensures EscapeHtml(Some(s)) == EscapeEach(s)
  {
    if s != [] {
      var head, tail := [s[0]], s[1..];
      assert s == head + tail;
      var a1 := ReplaceAll(head, '&', Amp);
      var a2 := ReplaceAll(tail, '&', Amp);
      ReplaceAllAppend(head, tail, '&', Amp);
      var b1 := ReplaceAll(a1, '<', Lt);
      var b2 := ReplaceAll(a2, '<', Lt);
      ReplaceAllAppend(a1, a2, '<', Lt);
      ReplaceAllAppend(b1, b2, '>', Gt);
      EscapeOneChar(s[0]);
      EscapeHtmlIsEscapeEach(tail);
    }
  }

  /** An entity inside u is still an entity where u sits inside t. */
  lemma EntityShift(u: string, t: string, off: nat, i: nat)
    requires off + |u| <= |t| && t[off..off + |u|] == u
    requires EntityAt(u, i)
    ensures EntityAt(t, off + i)
  {
    var j := off + i;
    assert forall k :: 0 <= k < |u| ==> u[k] == t[off + k];
    if i + |Amp| <= |u| && u[i..i + |Amp|] == Amp {
      assert t[j..j + |Amp|] == u[i..i + |Amp|];
    } else if i + |Lt| <= |u| && u[i..i + |Lt|] == Lt {
      assert t[j..j + |Lt|] == u[i..i + |Lt|];
    } else {
      assert t[j..j + |Gt|] == u[i..i + |Gt|];
    }
  }

  lemma EntitiesConcat(a: string, b: string)
    requires AmpersandsAreEntities(a) && AmpersandsAreEntities(b)
    ensures AmpersandsAreEntities(a + b)
  {
    var t := a + b;
    assert t[0..|a|] == a && t[|a|..|a| + |b|] == b;
    forall i | 0 <= i < |t| && t[i] == '&'
      ensures EntityAt(t, i)
    {
      if i < |a| {
        assert a[i] == '&';
        EntityShift(a, t, 0, i);
      } else {
        assert b[i - |a|] == '&';
        EntityShift(b, t, |a|, i - |a|);
      }
    }
  }

  lemma {:induction false} EscapeEachEntities(s: string)
    ensures AmpersandsAreEntities(EscapeEach(s))
  {
    if s != [] {
      var e := EscapeChar(s[0]);
      assert AmpersandsAreEntities(e) by {
        if s[0] == '&' { assert e[0..|Amp|] == Amp; assert EntityAt(e, 0); }
        else if s[0] == '<' { assert e[0..|Lt|] == Lt; }
        else if s[0] == '>' { assert e[0..|Gt|] == Gt; }
      }
      EscapeEachEntities(s[1..]);
      EntitiesConcat(e, EscapeEach(s[1..]));
    }
  }

  /** Every `&` left in the output is the start of `&amp;`, `&lt;` or `&gt;`. */
  lemma EscapeHtmlAmpersandsAreEntities(s: Option<string>)
    ensures AmpersandsAreEntities(EscapeHtml(s))
  {
    EscapeHtmlIsEscapeEach(s.GetOr(""));
    EscapeEachEntities(s.GetOr(""));
  }

  /** A leading entity decodes to its character. */
  lemma UnescapeAmp(rest: string)
    ensures Unescape(Amp + rest) == "&" + Unescape(rest)
  {
    var t := Amp + rest;
    assert t[..|Amp|] == Amp && t[|Amp|..] == rest;
  }

  lemma UnescapeLt(rest: string)
    ensures Unescape(Lt + rest) == "<" + Unescape(rest)
  {
    var t := Lt + rest;
    assert t[..|Lt|] == Lt && t[|Lt|..] == rest;
    assert t[1] == 'l';
    assert |t| >= |Amp| ==> t[..|Amp|] != Amp by { assert Amp[1] == 'a'; }
  }

  lemma UnescapeGt(rest: string)
    ensures Unescape(Gt + rest) == ">" + Unescape(rest)
  {
    var t := Gt + rest;
    assert t[..|Gt|] == Gt && t[|Gt|..] == rest;
    assert t[1] == 'g';
    assert |t| >= |Amp| ==> t[..|Amp|] != Amp by { assert Amp[1] == 'a'; }
    assert t[..|Lt|] != Lt by { assert Lt[1] == 'l'; }
  }

  /** A character that needs no escape stands for itself. */
  lemma UnescapePlain(c: char, rest: string)
    requires c != '&'
    ensures Unescape([c] + rest) == [c] + Unescape(rest)
  {
    var t := [c] + rest;
    assert t[0] == c && t[1..] == rest;
    assert |t| >= |Amp| ==> t[..|Amp|] != Amp by {
      if |t| >= |Amp| { assert t[..|Amp|][0] == c; }
    }
    assert |t| >= |Lt| ==> t[..|Lt|] != Lt by {
      if |t| >= |Lt| { assert t[..|Lt|][0] == c; }
    }
    assert |t| >= |Gt| ==> t[..|Gt|] != Gt by {
      if |t| >= |Gt| { assert t[..|Gt|][0] == c; }
    }
  }

  /** Decoding an escaped character followed by anything decodes that character first. */
  lemma UnescapeStep(c: char, rest: string)
    ensures Unescape(EscapeChar(c) + rest) == [c] + Unescape(rest)
  {
    if c == '&' {
      UnescapeAmp(rest);
    } else if c == '<' {
      UnescapeLt(rest);
    } else if c == '>' {
      UnescapeGt(rest);
    } else {
      UnescapePlain(c, rest);
    }
  }

  lemma {:induction false} UnescapeEscapeEach(s: string)
    ensures Unescape(EscapeEach(s)) == s
  {
    if s != [] {
      UnescapeStep(s[0], EscapeEach(s[1..]));
      UnescapeEscapeEach(s[1..]);
      assert s == [s[0]] + s[1..];
    }
  }

  /**
   * Because `&` is replaced first, no entity is escaped twice: decoding the
   * output gives back exactly the input.
   */
  lemma EscapeHtmlRoundTrip(s: string)
    ensures Unescape(EscapeHtml(Some(s))) == s
  {
    EscapeHtmlIsEscapeEach(s);
    UnescapeEscapeEach(s);
  }

  /** Distinct inputs never escape to the same output. */
  lemma EscapeHtmlInjective(s: string, s': string)
    requires EscapeHtml(Some(s)) == EscapeHtml(Some(s'))
    ensures s == s'
  {
    EscapeHtmlRoundTrip(s);
    EscapeHtmlRoundTrip(s');
  }
}

=== FILE: portal.dfy ===
/**
 * The portal's session state and the handlers that change it: selecting a
 * contact (with the soft-pressure rule), resetting the case, and filing
 * charges once the prosecutor's reply has arrived.  Rendering, logging and
 * notifications are presentation; only the notice a handler picks is kept.
 */
module Portal {
  import opened Wrappers
  import opened Contacts
  import opened Transcript
  import Verdict
  import Scoring
  import Promotion

  /** The signal indicator: idle, a stable line, or a request in flight. */
  datatype Signal = Idle | Stable | Processing | Submitting

  datatype Portal = Portal(
    contacts: seq<Contact>,
    sessions: map<string, nat>,
    active: Option<string>,
    transcript: Log,
    signal: Signal,
    stats: Scoring.Stats)

  /** Which notification a contact selection raises. */
  datatype Notice = ContactUnavailable | CallReady | SoftPressure

  datatype Selection = Selection(portal: Portal, notice: Notice)

  /** The prosecutor service's answer: a verdict text, or an error payload. */
  datatype Reply = Answered(text: string) | Failed(error: string)

  const SystemSender: string := "SYSTEM"
  const NoTranscriptText: string := "NO TRANSCRIPT. INVESTIGATE BEFORE FILING."
  const RequestFailed: string := "Request failed"

  function ConnectedText(name: string): string
  {
    "CONNECTED: " + name + ". (Phone line audio)"
  }

  /** The state at page load, with whatever progression record was loaded. */
  function Initial(stats: Scoring.Stats): (r: Portal)
    ensures r.transcript == [] && r.active == None && r.stats == stats
    ensures IsRoster(r.contacts)
    ensures forall j :: 0 <= j < |r.contacts| ==>
      r.contacts[j].status == Available && r.contacts[j].key in r.sessions && r.sessions[r.contacts[j].key] == 0
  {
    Portal(Roster, FreshSessions, None, [], Idle, stats)
  }

  /** The invariants the handlers keep. */
  predicate Wf(p: Portal)
  {
    && IsRoster(p.contacts)
    && (forall j :: 0 <= j < |p.contacts| ==> p.contacts[j].key in p.sessions)
    && (forall j :: 0 <= j < |p.contacts| ==> WfContact(p, j))
    && (p.active.Some? ==> exists j :: 0 <= j < |p.contacts| && p.contacts[j].key == p.active.value)
  }

  /**
   * Contact j's counter is at most the limit, and the contact is
   * unavailable exactly when its counter has reached it; it is never busy.
   */
  predicate WfContact(p: Portal, j: nat)
    requires j < |p.contacts| && p.contacts[j].key in p.sessions
  {
    var c := p.contacts[j];
    && c.status != Busy
    && p.sessions[c.key] <= SoftPressureLimit
    && (c.status == Unavailable <==> p.sessions[c.key] == SoftPressureLimit)
  }

  /** The click handler of contact row i. */
  function SelectContact(p: Portal, i: nat): (r: Selection)
    requires i < |p.contacts|
    requires p.contacts[i].key in p.sessions
    ensures p.contacts[i].status == Unavailable ==> r == Selection(p, ContactUnavailable)
    ensures p.contacts[i].status != Unavailable ==>
      var key, count := p.contacts[i].key, p.sessions[p.contacts[i].key] + 1;
      && r.portal.active == Some(key)
      && r.portal.signal == Stable
      && r.portal.transcript == AddLine(p.transcript, SystemSender, ConnectedText(p.contacts[i].name))
      && r.portal.sessions == p.sessions[key := count]
      && r.portal.stats == p.stats
      && |r.portal.contacts| == |p.contacts|
      && (forall j :: 0 <= j < |p.contacts| && j != i ==> r.portal.contacts[j] == p.contacts[j])
      && (count >= SoftPressureLimit ==>
            r.portal.contacts[i] == p.contacts[i].(status := Unavailable) && r.notice == SoftPressure)
      && (count < SoftPressureLimit ==>
            r.portal.contacts[i] == p.contacts[i] && r.notice == CallReady)
  {
    var c := p.contacts[i];
    if c.status == Unavailable then Selection(p, ContactUnavailable)
    else
      var count := p.sessions[c.key] + 1;
      var connected := p.(
        active := Some(c.key),
        signal := Stable,
        transcript := AddLine(p.transcript, SystemSender, ConnectedText(c.name)),
        sessions := p.sessions[c.key := count]);
      if count >= SoftPressureLimit then
        Selection(connected.(contacts := p.contacts[i := c.(status := Unavailable)]), SoftPressure)
      else
        Selection(connected, CallReady)
  }

  /** The case-reset handler. */
  function ResetCase(p: Portal): (r: Portal)
    ensures r.transcript == [] && r.active == None && r.signal == Idle
    ensures r.stats == p.stats
    ensures |r.contacts| == |p.contacts|
    ensures forall j :: 0 <= j < |p.contacts| ==> r.contacts[j] == p.contacts[j].(status := Available)
    ensures forall k :: k in FreshSessions ==> k in r.sessions && r.sessions[k] == 0
    ensures forall k :: k in p.sessions && k !in FreshSessions ==> k in r.sessions && r.sessions[k] == p.sessions[k]
  {
    p.(
      transcript := [],
      active := None,
      signal := Idle,
      contacts := RestoreAll(p.contacts),
      sessions := p.sessions["patient" := 0]["reception" := 0]["billing" := 0])
  }

  /**
   * The file-charges handler once the charge prompts are answered: with an
   * empty transcript it only adds a notice line; an error reply adds the
   * error line; a verdict is trimmed, parsed, scored and may promote.
   */
  function FileCharges(p: Portal, reply: Reply): (r: Portal)
    ensures p.transcript == [] ==> r == p.(transcript := AddLine(p.transcript, SystemSender, NoTranscriptText))
    ensures p.transcript != [] && reply.Failed? ==>
      r == p.(signal := Stable,
              transcript := AddLine(p.transcript, SystemSender,
                "PROSECUTOR ERROR: " + (if reply.error == "" then RequestFailed else reply.error)))
    ensures p.transcript != [] && reply.Answered? ==>
      r == p.(signal := Stable, stats := Promotion.RecordVerdict(p.stats, Verdict.Trim(reply.text)))
    ensures r.contacts == p.contacts && r.sessions == p.sessions && r.active == p.active
    ensures p.transcript <= r.transcript
    ensures Scoring.Consistent(p.stats) ==> Scoring.Consistent(r.stats)
    ensures p.stats.rankIndex <= r.stats.rankIndex <= p.stats.rankIndex + 1
  {
    if p.transcript == [] then
      p.(transcript := AddLine(p.transcript, SystemSender, NoTranscriptText))
    else
      match reply
      case Failed(error) =>
        var message := if error == "" then RequestFailed else error;
        p.(signal := Stable, transcript := AddLine(p.transcript, SystemSender, "PROSECUTOR ERROR: " + message))
      case Answered(text) =>
        p.(signal := Stable, stats := Promotion.RecordVerdict(p.stats, Verdict.Trim(text)))
  }

  /** The page-load state satisfies the invariants. */
  lemma InitialWf(stats: Scoring.Stats)
    ensures Wf(Initial(stats))
  {
    var p := Initial(stats);
    forall j | 0 <= j < |p.contacts| ensures p.contacts[j].key in p.sessions && WfContact(p, j) {
    }
  }

  /** Selecting any contact keeps the invariants. */
  lemma SelectPreservesWf(p: Portal, i: nat)
    requires Wf(p)
    requires i < |p.contacts|
    ensures Wf(SelectContact(p, i).portal)
  {
    var c := p.contacts[i];
    assert WfContact(p, i);
    if c.status != Unavailable {
      var q := SelectContact(p, i).portal;
      forall j | 0 <= j < |q.contacts|
        ensures SameContactAt(q.contacts, j)
        ensures q.contacts[j].key in q.sessions && WfContact(q, j)
      {
        assert SameContactAt(p.contacts, j);
        assert WfContact(p, j);
        if j != i {
          RosterKeysDistinct(p.contacts, i, j);
        }
      }
      assert q.contacts[i].key == c.key;
    }
  }

  /**
   * A reset from any roster state zeroes every contact's counter, makes
   * every contact available, and so satisfies the invariants, whatever the
   * counters were before.
   */
  lemma ResetWf(p: Portal)
    requires IsRoster(p.contacts)
    ensures Wf(ResetCase(p))
    ensures forall j :: 0 <= j < |p.contacts| ==>
      && ResetCase(p).contacts[j].status == Available
      && p.contacts[j].key in ResetCase(p).sessions
      && ResetCase(p).sessions[p.contacts[j].key] == 0
  {
    var q := ResetCase(p);
    forall j | 0 <= j < |q.contacts|
      ensures SameContactAt(q.contacts, j)
      ensures q.contacts[j].key in q.sessions && q.sessions[q.contacts[j].key] == 0
      ensures WfContact(q, j)
    {
      assert SameContactAt(p.contacts, j);
    }
  }

  /** Every selection counter stays at or below the limit. */
  lemma CountersBounded(p: Portal, j: nat)
    requires Wf(p)
    requires j < |p.contacts|
    ensures p.sessions[p.contacts[j].key] <= SoftPressureLimit
    ensures p.contacts[j].status != Busy
  {
    assert WfContact(p, j);
  }

  /**
   * The selection that brings a contact's counter to the limit still
   * connects the call (the contact becomes active first) and only then
   * marks the contact unavailable.
   */
  lemma LimitSelectionStillConnects(p: Portal, i: nat)
    requires Wf(p)
    requires i < |p.contacts|
    requires p.sessions[p.contacts[i].key] == SoftPressureLimit - 1
    ensures SelectContact(p, i).portal.active == Some(p.contacts[i].key)
    ensures SelectContact(p, i).portal.contacts[i].status == Unavailable
    ensures SelectContact(p, i).notice == SoftPressure
  {
    assert WfContact(p, i);
  }

  /** Selecting contact i n times in a row. */
  function SelectTimes(p: Portal, i: nat, n: nat): (r: Portal)
    requires Wf(p)
    requires i < |p.contacts|
    ensures Wf(r)
    ensures |r.contacts| == |p.contacts|
    decreases n
  {
    if n == 0 then p
    else
      SelectPreservesWf(p, i);
      SelectTimes(SelectContact(p, i).portal, i, n - 1)
  }

  function Min(a: int, b: int): int
  {
    if a <= b then a else b
  }

  /**
   * n selections in a row add n to a contact's counter until it reaches
   * the limit, and leave it unavailable exactly when the limit is reached.
   */
  lemma {:induction false} SelectTimesCount(p: Portal, i: nat, n: nat)
    requires Wf(p)
    requires i < |p.contacts|
    ensures SelectTimes(p, i, n).contacts[i].key == p.contacts[i].key
    ensures SelectTimes(p, i, n).sessions[p.contacts[i].key] ==
      Min(p.sessions[p.contacts[i].key] + n, SoftPressureLimit)
    ensures SelectTimes(p, i, n).contacts[i].status == Unavailable <==>
      p.sessions[p.contacts[i].key] + n >= SoftPressureLimit
    decreases n
  {
    assert WfContact(p, i);
    if n > 0 {
      SelectPreservesWf(p, i);
      var q := SelectContact(p, i).portal;
      SelectTimesCount(q, i, n - 1);
      assert WfContact(q, i);
    }
  }

  /**
   * After a reset, four selections of one contact make it unavailable and
   * a fifth is refused: nothing changes, its counter stays at four.
   */
  lemma FifthSelectionRefused(p: Portal, i: nat)
    requires IsRoster(p.contacts)
    requires i < |p.contacts|
    ensures Wf(ResetCase(p))
    ensures
      var q := SelectTimes(ResetCase(p), i, 4);
      && q.contacts[i].status == Unavailable
      && q.sessions[q.contacts[i].key] == SoftPressureLimit
      && SelectContact(q, i) == Selection(q, ContactUnavailable)
  {
    ResetWf(p);
    SelectTimesCount(ResetCase(p), i, 4);
  }

  /** A sequence of clicks on contact rows, from left to right. */
  function Run(p: Portal, clicks: seq<nat>): (r: Portal)
    requires Wf(p)
    requires forall k :: 0 <= k < |clicks| ==> clicks[k] < |p.contacts|
    ensures Wf(r)
    ensures |r.contacts| == |p.contacts|
    decreases |clicks|
  {
    if clicks == [] then p
    else
      SelectPreservesWf(p, clicks[0]);
      Run(SelectContact(p, clicks[0]).portal, clicks[1..])
  }

  /**
   * Along any run of clicks no contact ever becomes busy, no counter passes
   * the limit, and an unavailable contact stays unavailable.
   */
  lemma {:induction false} RunKeepsUnavailable(p: Portal, clicks: seq<nat>, j: nat)
    requires Wf(p)
    requires forall k :: 0 <= k < |clicks| ==> clicks[k] < |p.contacts|
    requires j < |p.contacts|
    requires p.contacts[j].status == Unavailable
    ensures Run(p, clicks).contacts[j].status == Unavailable
    decreases |clicks|
  {
    if clicks != [] {
      SelectPreservesWf(p, clicks[0]);
      var q := SelectContact(p, clicks[0]).portal;
      RunKeepsUnavailable(q, clicks[1..], j);
    }
  }

  /** From page load, whatever the player clicks, no contact is ever busy. */
  lemma NeverBusy(stats: Scoring.Stats, clicks: seq<nat>, j: nat)
    requires forall k :: 0 <= k < |clicks| ==> clicks[k] < |Roster|
    requires j < |Roster|
    ensures Wf(Initial(stats))
    ensures Run(Initial(stats), clicks).contacts[j].status != Busy
  {
    InitialWf(stats);
    CountersBounded(Run(Initial(stats), clicks), j);
  }
}

=== FILE: promotion.dfy ===
/**
 * Rank names and the promotion rule: at most one step per evaluation, gated
 * by a minimum number of decisions and a conviction-rate threshold that
 * depends on the current rank.
 */
module Promotion {
  import opened Scoring
  import Verdict

  const Ranks: seq<string> := [
    "PROBATIONARY AGENT",
    "FIELD INVESTIGATOR",
    "SENIOR AGENT",
    "CASE SPECIALIST",
    "LEAD INVESTIGATOR"
  ]

  /** The promotion gates in percent: 0.55, 0.62, 0.70, 0.78. */
  const ThresholdPercents: seq<nat> := [55, 62, 70, 78]

  /** Rank i needs a conviction rate of at least Thresholds[i] to move to rank i + 1. */
  const Thresholds: seq<Ratio> := [Ratio(55, 100), Ratio(62, 100), Ratio(70, 100), Ratio(78, 100)]

  const MinDecisions: nat := 3

  /** The highest rank index; also the number of promotion gates. */
  const TopRank: nat := 4

  /** `rankName`: the rank table entry, with the index clamped into the table. */
  function RankName(i: int): (r: string)
    ensures r in Ranks
    ensures 0 <= i < |Ranks| ==> r == Ranks[i]
    ensures i < 0 ==> r == Ranks[0]
    ensures i >= |Ranks| ==> r == Ranks[|Ranks| - 1]
  {
    var top := |Ranks| - 1;
    var k := if i < 0 then 0 else if i > top then top else i;
    Ranks[k]
  }

  /** The promotion test at a rank inside the threshold table. */
  predicate Eligible(s: Stats)
  {
    && 0 <= s.rankIndex < |Thresholds|
    && s.totalDecisions >= MinDecisions
    && s.convictionRate.AtLeast(Thresholds[s.rankIndex])
  }

  /**
   * `maybePromote`.  Returns at once at or above the top rank; a negative
   * rank reads `thresholds[rankIndex]` as undefined, and no rate compares
   * as at least undefined, so that record is not promoted either.
   */
  function MaybePromote(s: Stats): (r: Stats)
    ensures r == s || r == s.(rankIndex := s.rankIndex + 1)
    ensures s.rankIndex >= |Thresholds| ==> r == s
    ensures s.rankIndex <= TopRank ==> r.rankIndex <= TopRank
  {
    if s.rankIndex >= |Thresholds| then s
    else if s.rankIndex < 0 then s
    else if s.totalDecisions >= MinDecisions && s.convictionRate.AtLeast(Thresholds[s.rankIndex]) then
      s.(rankIndex := s.rankIndex + 1)
    else s
  }

  /** Promotion happens exactly when the record is eligible. */
  lemma PromotesIffEligible(s: Stats)
    ensures MaybePromote(s).rankIndex == s.rankIndex + 1 <==> Eligible(s)
    ensures !Eligible(s) ==> MaybePromote(s) == s
  {
  }

  /**
   * For a consistent record inside the table, the real-valued test is the
   * integer comparison `100 * accepted >= percent * total` with at least
   * three decisions.
   */
  lemma EligibleByCrossMultiplication(s: Stats)
    requires Consistent(s)
    requires 0 <= s.rankIndex < |Thresholds|
    ensures Eligible(s) <==>
      s.totalDecisions >= MinDecisions
      && 100 * s.accepted >= ThresholdPercents[s.rankIndex] * s.totalDecisions
  {
    assert Thresholds[s.rankIndex] == Ratio(ThresholdPercents[s.rankIndex], 100);
  }

  /**
   * The stats part of the file-charges handler once the decision is known:
   * score, then maybe promote.  The record is left consistent, and the rank
   * never falls, rises by at most one, and never passes the top of the table.
   */
  function FileDecision(s: Stats, d: Verdict.Decision): (r: Stats)
    ensures Consistent(r)
    ensures s.rankIndex <= r.rankIndex <= s.rankIndex + 1
    ensures s.rankIndex <= TopRank ==> r.rankIndex <= TopRank
  {
    MaybePromote(ApplyDecision(s, d))
  }

  /** The file-charges handler after the remote verdict arrives: parse, score, maybe promote. */
  function RecordVerdict(s: Stats, text: string): (r: Stats)
    ensures Consistent(r)
    ensures s.rankIndex <= r.rankIndex <= s.rankIndex + 1
    ensures Verdict.NoTagBetween(text, 0, |text|) && Consistent(s) ==> r == MaybePromote(s)
  {
    Verdict.ParseDecisionLeftmost(text);
    FileDecision(s, Verdict.Classify(Verdict.ParseDecision(text)))
  }

  /** A run of verdicts, one filing after another; after at least one filing the record is consistent. */
  function RecordAll(s: Stats, texts: seq<string>): (r: Stats)
    ensures texts == [] ==> r == s
    ensures texts != [] || Consistent(s) ==> Consistent(r)
    decreases |texts|
  {
    if texts == [] then s else RecordAll(RecordVerdict(s, texts[0]), texts[1..])
  }

  /** A run of filings whose decisions are already known. */
  function FileAll(s: Stats, ds: seq<Verdict.Decision>): Stats
    decreases |ds|
  {
    if ds == [] then s else FileAll(FileDecision(s, ds[0]), ds[1..])
  }

  /** The decisions the texts of a run parse to, in order. */
  predicate ParsesTo(texts: seq<string>, ds: seq<Verdict.Decision>)
  {
    |texts| == |ds| && forall i :: 0 <= i < |texts| ==> Verdict.Classify(Verdict.ParseDecision(texts[i])) == ds[i]
  }

  /** A run of verdict texts files exactly as the run of the decisions they parse to. */
  lemma {:induction false} RecordAllFilesDecisions(s: Stats, texts: seq<string>, ds: seq<Verdict.Decision>)
    requires ParsesTo(texts, ds)
    ensures RecordAll(s, texts) == FileAll(s, ds)
    decreases |texts|
  {
    if texts != [] {
      assert RecordVerdict(s, texts[0]) == FileDecision(s, ds[0]);
      assert ParsesTo(texts[1..], ds[1..]) by {
        forall i | 0 <= i < |texts| - 1
          ensures Verdict.Classify(Verdict.ParseDecision(texts[1..][i])) == ds[1..][i]
        {
          assert texts[1..][i] == texts[i + 1];
        }
      }
      RecordAllFilesDecisions(FileDecision(s, ds[0]), texts[1..], ds[1..]);
    }
  }

  /**
   * Over any run of filings the rank never falls, rises by at most one per
   * filing, and never passes the top of the rank table.
   */
  lemma {:induction false} RecordAllRank(s: Stats, texts: seq<string>)
    requires s.rankIndex <= TopRank
    ensures s.rankIndex <= RecordAll(s, texts).rankIndex <= s.rankIndex + |texts|
    ensures RecordAll(s, texts).rankIndex <= TopRank
    decreases |texts|
  {
    if texts != [] {
      RecordAllRank(RecordVerdict(s, texts[0]), texts[1..]);
    }
  }

  /** Once at the top rank, filings no longer change the rank. */
  lemma {:induction false} TopRankIsFinal(s: Stats, texts: seq<string>)
    requires s.rankIndex >= TopRank
    ensures RecordAll(s, texts).rankIndex == s.rankIndex
    decreases |texts|
  {
    if texts != [] {
      TopRankIsFinal(RecordVerdict(s, texts[0]), texts[1..]);
    }
  }

  /** The verdict texts of the two scenarios below. */
  const AcceptText: string := Verdict.Header + " " + Verdict.AcceptWord
  const RejectText: string := Verdict.Header + " " + Verdict.RejectWord

  lemma AcceptTextParses()
    ensures Verdict.Classify(Verdict.ParseDecision(AcceptText)) == Verdict.Accept
  {
    Verdict.ParseSpelledTag(Verdict.AcceptWord, " ");
    Verdict.ClassifySpelling(Verdict.Accept, "");
  }

  lemma RejectTextParses()
    ensures Verdict.Classify(Verdict.ParseDecision(RejectText)) == Verdict.Reject
  {
    Verdict.ParseSpelledTag(Verdict.RejectWord, " ");
    Verdict.ClassifySpelling(Verdict.Reject, "");
  }

  /** Filing two decisions is filing one, then the other. */
  lemma FileAllTwo(s: Stats, d1: Verdict.Decision, d2: Verdict.Decision)
    ensures FileAll(s, [d1, d2]) == FileDecision(FileDecision(s, d1), d2)
  {
    assert [d1, d2][1..] == [d2] && [d2][1..] == [];
    assert FileAll(FileDecision(s, d1), [d2]) == FileDecision(FileDecision(s, d1), d2);
  }

  /** Filing three decisions is filing the first, then the other two. */
  lemma FileAllThree(s: Stats, d1: Verdict.Decision, d2: Verdict.Decision, d3: Verdict.Decision)
    ensures FileAll(s, [d1, d2, d3]) == FileAll(FileDecision(s, d1), [d2, d3])
  {
    assert [d1, d2, d3][1..] == [d2, d3];
  }

  /** The rank after one promotion attempt that passes every gate. */
  function NextRank(k: int): int
  {
    if 0 <= k < TopRank then k + 1 else k
  }

  /**
   * From any record with no accepts or rejects yet (NEED MORE verdicts do
   * not count), three accepts give a perfect rate on the third decision and
   * promote exactly once, at the third filing.
   */
  lemma ThreeAcceptDecisionsPromote(s: Stats)
    requires s.accepted == 0 && s.rejected == 0
    ensures FileDecision(s, Verdict.Accept)
      == s.(accepted := 1, totalDecisions := 1, convictionRate := Ratio(1, 1))
    ensures FileDecision(FileDecision(s, Verdict.Accept), Verdict.Accept)
      == s.(accepted := 2, totalDecisions := 2, convictionRate := Ratio(2, 2))
    ensures FileDecision(FileDecision(FileDecision(s, Verdict.Accept), Verdict.Accept), Verdict.Accept)
      == s.(rankIndex := NextRank(s.rankIndex), accepted := 3, totalDecisions := 3, convictionRate := Ratio(3, 3))
  {
    var a := Verdict.Accept;
    var s1 := s.(accepted := 1, totalDecisions := 1, convictionRate := Ratio(1, 1));
    var s2 := s.(accepted := 2, totalDecisions := 2, convictionRate := Ratio(2, 2));
    assert FileDecision(s, a) == s1;
    assert FileDecision(s1, a) == s2;
    if 0 <= s.rankIndex < |Thresholds| {
      assert Ratio(3, 3).AtLeast(Thresholds[s.rankIndex]);
    }
  }

  /**
   * From any record with no accepts or rejects yet, a reject then an accept
   * gives a rate of one half but only two decisions: no promotion, at any rank.
   */
  lemma RejectThenAcceptDecisionsStay(s: Stats)
    requires s.accepted == 0 && s.rejected == 0
    ensures FileDecision(FileDecision(s, Verdict.Reject), Verdict.Accept)
      == s.(accepted := 1, rejected := 1, totalDecisions := 2, convictionRate := Ratio(1, 2))
  {
    assert FileDecision(s, Verdict.Reject) == s.(rejected := 1, totalDecisions := 1, convictionRate := Ratio(0, 1));
  }

  /**
   * Three accepted filings (for instance three copies of AcceptText) from a
   * record with no accepts or rejects promote once.
   */
  lemma ThreeAcceptsPromote(s: Stats, t: string)
    requires s.accepted == 0 && s.rejected == 0
    requires Verdict.Classify(Verdict.ParseDecision(t)) == Verdict.Accept
    ensures RecordAll(s, [t, t, t])
      == s.(rankIndex := NextRank(s.rankIndex), accepted := 3, totalDecisions := 3, convictionRate := Ratio(3, 3))
  {
    var a := Verdict.Accept;
    RecordAllFilesDecisions(s, [t, t, t], [a, a, a]);
    FileAllThree(s, a, a, a);
    FileAllTwo(FileDecision(s, a), a, a);
    ThreeAcceptDecisionsPromote(s);
  }

  /**
   * A reject then an accept (for instance RejectText then AcceptText) gives
   * a rate of one half but only two decisions: no promotion.
   */
  lemma RejectThenAcceptStays(s: Stats, r: string, a: string)
    requires s.accepted == 0 && s.rejected == 0
    requires Verdict.Classify(Verdict.ParseDecision(r)) == Verdict.Reject
    requires Verdict.Classify(Verdict.ParseDecision(a)) == Verdict.Accept
    ensures RecordAll(s, [r, a])
      == s.(accepted := 1, rejected := 1, totalDecisions := 2, convictionRate := Ratio(1, 2))
  {
    RecordAllFilesDecisions(s, [r, a], [Verdict.Reject, Verdict.Accept]);
    FileAllTwo(s, Verdict.Reject, Verdict.Accept);
    RejectThenAcceptDecisionsStay(s);
  }

  /** The walkthrough from a new player's record: three accepted filings reach the second rank. */
  lemma FreshThreeAcceptsPromote()
    ensures RecordAll(Fresh, [AcceptText, AcceptText, AcceptText])
      == Fresh.(rankIndex := 1, accepted := 3, totalDecisions := 3, convictionRate := Ratio(3, 3))
    ensures RankName(RecordAll(Fresh, [AcceptText, AcceptText, AcceptText]).rankIndex) == Ranks[1]
  {
    AcceptTextParses();
    ThreeAcceptsPromote(Fresh, AcceptText);
    assert Fresh.rankIndex == 0 && NextRank(0) == 1;
  }
}

=== FILE: scoring.dfy ===
/**
 * The progression record and the update the file-charges handler applies
 * after a verdict is parsed: one counter moves, then the decision total and
 * the conviction rate are recomputed.  The rate is kept as an exact ratio.
 */
module Scoring {
  import Verdict

  type Denominator = d: nat | d >= 1 witness 1

  /** An exact non-negative fraction num / den. */
  datatype Ratio = Ratio(num: nat, den: Denominator) {

    /** this >= other, by cross-multiplication. */
    predicate AtLeast(other: Ratio)
    {
      num * other.den >= other.num * den
    }
  }

  datatype Stats = Stats(
    rankIndex: int,
    accepted: nat,
    rejected: nat,
    needMore: nat,
    totalDecisions: nat,
    convictionRate: Ratio)

  /** The record a first run starts from (and the fallback for a missing record). */
  const Fresh: Stats := Stats(0, 0, 0, 0, 0, Ratio(0, 1))

  function Max(a: int, b: int): int
  {
    if a >= b then a else b
  }

  /** `accepted / max(1, accepted + rejected)`, exactly. */
  function Rate(accepted: nat, rejected: nat): Ratio
  {
    Ratio(accepted, Max(1, accepted + rejected))
  }

  /** The derived fields agree with the counters. */
  predicate Consistent(s: Stats)
  {
    && s.totalDecisions == s.accepted + s.rejected
    && s.convictionRate == Rate(s.accepted, s.rejected)
  }

  /** All adjudication outcomes recorded so far, neutral ones included. */
  function Outcomes(s: Stats): nat
  {
    s.accepted + s.rejected + s.needMore
  }

  /** The stats update of the file-charges handler for a parsed decision d. */
  function ApplyDecision(s: Stats, d: Verdict.Decision): (r: Stats)
    ensures Consistent(r)
    ensures r.rankIndex == s.rankIndex
  {
    var accepted := s.accepted + (if d == Verdict.Accept then 1 else 0);
    var rejected := s.rejected + (if d == Verdict.Reject then 1 else 0);
    var needMore := s.needMore + (if d == Verdict.NeedMore then 1 else 0);
    var total := accepted + rejected;
    var denom := Max(1, total);
    s.(accepted := accepted, rejected := rejected, needMore := needMore,
       totalDecisions := total, convictionRate := Ratio(accepted, denom))
  }

  /**
   * A decision moves exactly its own counter by one (none for an unknown
   * decision); every other counter and the rank stay as they were.
   */
  lemma ApplyDecisionCounters(s: Stats, d: Verdict.Decision)
    ensures ApplyDecision(s, d).accepted == s.accepted + 1 <==> d == Verdict.Accept
    ensures ApplyDecision(s, d).rejected == s.rejected + 1 <==> d == Verdict.Reject
    ensures ApplyDecision(s, d).needMore == s.needMore + 1 <==> d == Verdict.NeedMore
    ensures d != Verdict.Accept ==> ApplyDecision(s, d).accepted == s.accepted
    ensures d != Verdict.Reject ==> ApplyDecision(s, d).rejected == s.rejected
    ensures d != Verdict.NeedMore ==> ApplyDecision(s, d).needMore == s.needMore
    ensures d == Verdict.Unknown ==> Outcomes(ApplyDecision(s, d)) == Outcomes(s)
    ensures d != Verdict.Unknown ==> Outcomes(ApplyDecision(s, d)) == Outcomes(s) + 1
  {
  }

  /** The conviction rate of a consistent record lies in [0, 1]; no division by zero arises. */
  lemma RateInUnitInterval(s: Stats)
    requires Consistent(s)
    ensures s.convictionRate.AtLeast(Ratio(0, 1))
    ensures Ratio(1, 1).AtLeast(s.convictionRate)
  {
  }

  /**
   * From a consistent record, a NEED MORE verdict or one without a tag
   * leaves the decision total and the conviction rate as they were; only
   * NEED MORE moves its own counter.
   */
  lemma NeutralDecisionKeepsScore(s: Stats, d: Verdict.Decision)
    requires Consistent(s)
    requires d != Verdict.Accept && d != Verdict.Reject
    ensures ApplyDecision(s, d).totalDecisions == s.totalDecisions
    ensures ApplyDecision(s, d).convictionRate == s.convictionRate
    ensures ApplyDecision(s, d) == s.(needMore := s.needMore + (if d == Verdict.NeedMore then 1 else 0))
  {
  }

  /** A verdict whose text carries no tag changes nothing in a consistent record. */
  lemma UntaggedVerdictChangesNothing(s: Stats, text: string)
    requires Consistent(s)
    requires Verdict.NoTagBetween(text, 0, |text|)
    ensures ApplyDecision(s, Verdict.Classify(Verdict.ParseDecision(text))) == s
  {
    Verdict.ParseDecisionLeftmost(text);
  }
}

=== FILE: search.dfy ===
/**
 * The scan a regular-expression search performs: try the pattern at each
 * position from left to right and report the first match. A matcher gives,
 * for a text and a start position, the captured text of a match starting
 * there, or "" when the pattern does not match at that position.
 */
module Search {

  type Matcher = (string, nat) -> string

  /** The capture of the leftmost match at or after position i ("" for none). */
  function Leftmost(m: Matcher, t: string, i: nat): (r: string)
    requires i <= |t|
    ensures r != "" ==> exists p :: i <= p < |t| && m(t, p) == r
    decreases |t| - i
  {
    if i == |t| then ""
    else if m(t, i) != "" then m(t, i)
    else Leftmost(m, t, i + 1)
  }

  /** The matcher matches at none of the positions lo .. hi - 1. */
  predicate NoMatchBetween(m: Matcher, t: string, lo: nat, hi: nat)
  {
    forall p :: lo <= p < hi ==> m(t, p) == ""
  }

  /** The search comes back empty exactly when no position matches. */
  lemma {:induction false} LeftmostNone(m: Matcher, t: string, i: nat)
    requires i <= |t|
    ensures Leftmost(m, t, i) == "" <==> NoMatchBetween(m, t, i, |t|)
    decreases |t| - i
  {
    if i < |t| {
      LeftmostNone(m, t, i + 1);
      if m(t, i) == "" {
        assert NoMatchBetween(m, t, i, |t|) <==> NoMatchBetween(m, t, i + 1, |t|);
      }
    }
  }

  /** A successful search reports the match at the first matching position. */
  lemma {:induction false} LeftmostFirst(m: Matcher, t: string, i: nat) returns (p: nat)
    requires i <= |t|
    requires Leftmost(m, t, i) != ""
    ensures i <= p < |t| && NoMatchBetween(m, t, i, p) && m(t, p) == Leftmost(m, t, i)
    decreases |t| - i
  {
    if m(t, i) == "" {
      p := LeftmostFirst(m, t, i + 1);
    } else {
      p := i;
    }
  }

  /** Positions where nothing matches can be skipped. */
  lemma {:induction false} LeftmostSkip(m: Matcher, t: string, i: nat, a: nat)
    requires i <= a <= |t|
    requires NoMatchBetween(m, t, i, a)
    ensures Leftmost(m, t, i) == Leftmost(m, t, a)
    decreases a - i
  {
    if i < a {
      LeftmostSkip(m, t, i + 1, a);
    }
  }

  /**
   * Searching u from p finds what searching t from a + p finds, when u sits
   * inside t at offset a, the matcher agrees on every position of u, and
   * nothing in t after u matches.
   */
  lemma {:induction false} LeftmostShift(m: Matcher, u: string, t: string, a: nat, p: nat)
    requires p <= |u| && a + |u| <= |t|
    requires forall q :: p <= q < |u| ==> m(u, q) == m(t, a + q)
    requires NoMatchBetween(m, t, a + |u|, |t|)
    ensures Leftmost(m, u, p) == Leftmost(m, t, a + p)
    decreases |u| - p
  {
    if p == |u| {
      LeftmostSkip(m, t, a + |u|, |t|);
    } else {
      assert m(u, p) == m(t, a + p);
      LeftmostShift(m, u, t, a, p + 1);
    }
  }
}

=== FILE: transcript.dfy ===
/**
 * The session transcript: an append-only list of `sender: text` lines, and
 * its plain-text rendering (lines joined with newlines, in insertion order)
 * that is sent to the remote services as context.
 */
module Transcript {

  datatype Line = Line(sender: string, text: string)

  type Log = seq<Line>

  const Separator: string := ": "
  const Newline: char := '\n'

  /** One line as the source renders it: `${sender}: ${text}`. */
  function Format(l: Line): string
  {
    l.sender + Separator + l.text
  }

  /** `addLine`: pushes one line at the end and touches nothing else. */
  function AddLine(t: Log, sender: string, text: string): (r: Log)
    ensures |r| == |t| + 1
    ensures r[..|t|] == t
    ensures r[|t|] == Line(sender, text)
  {
    t + [Line(sender, text)]
  }

  /** `transcriptText`: the formatted lines joined with "\n". */
  function TranscriptText(t: Log): (r: string)
    ensures r == "" <==> t == []
  {
    if t == [] then ""
    else if |t| == 1 then Format(t[0])
    else Format(t[0]) + [Newline] + TranscriptText(t[1..])
  }

  /** `s.split("\n")`. */
  function Split(s: string): (r: seq<string>)
    ensures |r| >= 1
  {
    if Newline !in s then [s]
    else
      var k := FirstNewline(s);
      [s[..k]] + Split(s[k + 1..])
  }

  function FirstNewline(s: string): (k: nat)
    requires Newline in s
    ensures k < |s| && s[k] == Newline
    ensures Newline !in s[..k]
  {
    if s[0] == Newline then 0 else 1 + FirstNewline(s[1..])
  }

  /** No line's rendering contains a newline of its own. */
  predicate SingleLine(t: Log)
  {
    forall i :: 0 <= i < |t| ==> Newline !in Format(t[i])
  }

  function FormatAll(t: Log): (r: seq<string>)
    ensures |r| == |t|
    ensures forall i :: 0 <= i < |t| ==> r[i] == Format(t[i])
  {
    if t == [] then [] else [Format(t[0])] + FormatAll(t[1..])
  }

  /**
   * Appending a line extends the rendered text: the old text is kept as is,
   * followed by a newline (unless the log was empty) and the new line.
   */
  lemma {:induction false} TranscriptTextAddLine(t: Log, sender: string, text: string)
    ensures TranscriptText(AddLine(t, sender, text)) ==
      if t == [] then Format(Line(sender, text))
      else TranscriptText(t) + [Newline] + Format(Line(sender, text))
  {
    var l := Line(sender, text);
    var r := AddLine(t, sender, text);
    if |t| == 1 {
      assert r[1..] == [l];
    } else if |t| > 1 {
      assert r[0] == t[0];
      assert r[1..] == AddLine(t[1..], sender, text);
      TranscriptTextAddLine(t[1..], sender, text);
    }
  }

  /** The text sent as context only ever grows: an older rendering is a prefix of a newer one. */
  lemma TranscriptTextGrows(t: Log, sender: string, text: string)
    ensures TranscriptText(t) <= TranscriptText(AddLine(t, sender, text))
  {
    TranscriptTextAddLine(t, sender, text);
  }

  lemma {:induction false} SplitPrefix(a: string, b: string)
    requires Newline !in a
    ensures Split(a + [Newline] + b) == [a] + Split(b)
  {
    var s := a + [Newline] + b;
    assert s[|a|] == Newline;
    FirstNewlineIs(s, |a|);
    assert s[..|a|] == a;
    assert s[|a| + 1..] == b;
  }

  lemma {:induction false} FirstNewlineIs(s: string, k: nat)
    requires k < |s| && s[k] == Newline && Newline !in s[..k]
    ensures Newline in s && FirstNewline(s) == k
  {
    if k > 0 {
      assert s[0] == s[..k][0];
      assert s[1..][..k - 1] == s[..k][1..];
      FirstNewlineIs(s[1..], k - 1);
    }
  }

  /**
   * When no line contains a newline, splitting the rendered text at "\n"
   * gives back the formatted lines one by one, in order.
   */
  lemma {:induction false} SplitTranscriptText(t: Log)
    requires t != []
    requires SingleLine(t)
    ensures Split(TranscriptText(t)) == FormatAll(t)
  {
    assert Newline !in Format(t[0]);
    if |t| == 1 {
      assert FormatAll(t) == [Format(t[0])];
    } else {
      assert SingleLine(t[1..]) by {
        forall i | 0 <= i < |t[1..]| ensures Newline !in Format(t[1..][i]) {
          assert t[1..][i] == t[i + 1];
        }
      }
      SplitPrefix(Format(t[0]), TranscriptText(t[1..]));
      SplitTranscriptText(t[1..]);
    }
  }
}

=== FILE: verdict.dfy ===
/**
 * Parsing the prosecutor's free-text verdict for its decision tag, as the
 * regular expression /DECISION:\s*(ACCEPT|REJECT|NEED MORE)/i does: the
 * leftmost match wins, letters match in either case, whitespace after the
 * colon is optional, and the captured word is returned upper-cased ("" when
 * nothing matches).
 */
module Verdict {
  import Search

  const Header: string := "DECISION:"
  const AcceptWord: string := "ACCEPT"
  const RejectWord: string := "REJECT"
  const NeedMoreWord: string := "NEED MORE"
  const NoWord: string := ""

  /** The words the capture group can match, in the order the alternation tries them. */
  const Words: seq<string> := [AcceptWord, RejectWord, NeedMoreWord]

  /** The outcome the file-charges handler acts on. */
  datatype Decision = Accept | Reject | NeedMore | Unknown

  /** The handler's three string comparisons against the parsed word. */
  function Classify(word: string): (d: Decision)
    ensures d == Unknown <==> word !in Words
    ensures d != Unknown ==> Spelling(d) == word
  {
    if word == AcceptWord then Accept
    else if word == RejectWord then Reject
    else if word == NeedMoreWord then NeedMore
    else Unknown
  }

  /** The word that stands for each decision ("" for none). */
  function Spelling(d: Decision): (w: string)
    ensures IsDecisionWord(w)
  {
    match d
    case Accept => AcceptWord
    case Reject => RejectWord
    case NeedMore => NeedMoreWord
    case Unknown => NoWord
  }

  /** Classification and spelling are inverse on the parser's possible outputs. */
  lemma ClassifySpelling(d: Decision, w: string)
    ensures Classify(Spelling(d)) == d
    ensures IsDecisionWord(w) ==> Spelling(Classify(w)) == w
  {
    assert AcceptWord[0] != RejectWord[0];
  }

  /** Every value ParseDecision can return. */
  predicate IsDecisionWord(d: string)
  {
    d == AcceptWord || d == RejectWord || d == NeedMoreWord || d == NoWord
  }

  /**
   * The characters `\s` matches in a JavaScript regular expression: the
   * WhiteSpace and LineTerminator code points.
   */
  predicate IsSpace(c: char)
  {
    var n := c as int;
    || n == 0x09 || n == 0x0A || n == 0x0B || n == 0x0C || n == 0x0D || n == 0x20
    || n == 0xA0 || n == 0x1680 || (0x2000 <= n <= 0x200A)
    || n == 0x2028 || n == 0x2029 || n == 0x202F || n == 0x205F
    || n == 0x3000 || n == 0xFEFF
  }

  /** ASCII upper-casing; a case-insensitive match never maps another character to ASCII. */
  function Upper(c: char): char
  {
    if 'a' <= c <= 'z' then (c as int - 32) as char else c
  }

  function UpperString(s: string): (r: string)
    ensures |r| == |s|
    ensures forall k :: 0 <= k < |s| ==> r[k] == Upper(s[k])
  {
    if s == [] then [] else [Upper(s[0])] + UpperString(s[1..])
  }

  /** The upper-case pattern `pat` matches t at position i, ignoring case. */
  predicate MatchesAt(t: string, i: nat, pat: string)
  {
    i + |pat| <= |t| && forall k :: 0 <= k < |pat| ==> Upper(t[i + k]) == pat[k]
  }

  /** The end of the run of `\s` characters starting at j (greedy `\s*`). */
  function SkipSpaces(t: string, j: nat): (k: nat)
    requires j <= |t|
    ensures j <= k <= |t|
    ensures k == |t| || !IsSpace(t[k])
    decreases |t| - j
  {
    if j < |t| && IsSpace(t[j]) then SkipSpaces(t, j + 1) else j
  }

  /** Everything SkipSpaces passes over is whitespace. */
  lemma {:induction false} SkippedAreSpaces(t: string, j: nat)
    requires j <= |t|
    ensures AllSpaces(t, j, SkipSpaces(t, j))
    decreases |t| - j
  {
    if j < |t| && IsSpace(t[j]) {
      SkippedAreSpaces(t, j + 1);
    }
  }

  /** The end of s[lo..b] once trailing `\s` characters are dropped. */
  function TrimmedEnd(s: string, lo: nat, b: nat): (e: nat)
    requires lo <= b <= |s|
    ensures lo <= e <= b
    ensures e == lo || !IsSpace(s[e - 1])
    decreases b
  {
    if b > lo && IsSpace(s[b - 1]) then TrimmedEnd(s, lo, b - 1) else b
  }

  /** Everything TrimmedEnd drops is whitespace. */
  lemma {:induction false} DroppedAreSpaces(s: string, lo: nat, b: nat)
    requires lo <= b <= |s|
    ensures AllSpaces(s, TrimmedEnd(s, lo, b), b)
    decreases b
  {
    if b > lo && IsSpace(s[b - 1]) {
      DroppedAreSpaces(s, lo, b - 1);
    }
  }

  /** `String.prototype.trim`: whitespace and line terminators removed from both ends. */
  function Trim(s: string): (r: string)
    ensures |r| <= |s|
    ensures r == [] || (!IsSpace(r[0]) && !IsSpace(r[|r| - 1]))
    ensures exists a, b :: 0 <= a <= b <= |s| && r == s[a..b] && AllSpaces(s, 0, a) && AllSpaces(s, b, |s|)
  {
    var a := SkipSpaces(s, 0);
    var b := TrimmedEnd(s, a, |s|);
    SkippedAreSpaces(s, 0);
    DroppedAreSpaces(s, a, |s|);
    s[a..b]
  }

  /** The upper-cased capture when the whole pattern matches at i, else "". */
  function TagAt(t: string, i: nat): (r: string)
    ensures IsDecisionWord(r)
  {
    if !MatchesAt(t, i, Header) then NoWord
    else WordAt(t, SkipSpaces(t, i + |Header|))
  }

  /**
   * The alternation (ACCEPT|REJECT|NEED MORE) at position j, tried in that
   * order. A case-insensitive match upper-cases to the alternative's own
   * spelling (CaptureUpperCased), so that spelling is what is returned.
   */
  function WordAt(t: string, j: nat): string
  {
    if MatchesAt(t, j, AcceptWord) then AcceptWord
    else if MatchesAt(t, j, RejectWord) then RejectWord
    else if MatchesAt(t, j, NeedMoreWord) then NeedMoreWord
    else NoWord
  }

  /** `parseDecision`: the upper-cased word of the leftmost match, "" when there is none. */
  function ParseDecision(text: string): (r: string)
    ensures IsDecisionWord(r)
  {
    LeftmostIsWord(text);
    Search.Leftmost(TagAt, text, 0)
  }

  lemma LeftmostIsWord(text: string)
    ensures IsDecisionWord(Search.Leftmost(TagAt, text, 0))
  {
    if Search.Leftmost(TagAt, text, 0) != NoWord {
      var p := Search.LeftmostFirst(TagAt, text, 0);
    }
  }

  lemma UpperMatch(t: string, j: nat, w: string)
    requires MatchesAt(t, j, w)
    ensures UpperString(t[j..j + |w|]) == w
  {
    var u := UpperString(t[j..j + |w|]);
    forall k | 0 <= k < |w| ensures u[k] == w[k] {
      assert t[j..j + |w|][k] == t[j + k];
    }
  }

  lemma SpaceIsNotLetter(c: char)
    ensures IsSpace(c) ==> Upper(c) == c && !('A' <= c <= 'Z')
  {
  }

  /** Every character of t from lo up to hi is whitespace. */
  predicate AllSpaces(t: string, lo: nat, hi: nat)
    requires lo <= hi <= |t|
  {
    forall m :: lo <= m < hi ==> IsSpace(t[m])
  }

  /**
   * The regular expression's own meaning at position i: the header, then
   * any run of whitespace (of any length, not only the longest), then w.
   */
  ghost predicate PatternAt(t: string, i: nat, w: string)
  {
    && MatchesAt(t, i, Header)
    && exists j :: i + |Header| <= j <= |t| && AllSpaces(t, i + |Header|, j) && MatchesAt(t, j, w)
  }

  /** A match found by the greedy TagAt is a match of the pattern. */
  lemma TagAtSound(t: string, i: nat, w: string)
    requires w in Words
    requires TagAt(t, i) == w
    ensures PatternAt(t, i, w)
  {
    var s := i + |Header|;
    var k := SkipSpaces(t, s);
    var wk := if MatchesAt(t, k, AcceptWord) then AcceptWord
      else if MatchesAt(t, k, RejectWord) then RejectWord else NeedMoreWord;
    UpperMatch(t, k, wk);
    assert wk == w;
    SkippedAreSpaces(t, s);
  }

  /** Any match of the pattern is found by the greedy TagAt. */
  lemma TagAtComplete(t: string, i: nat, w: string)
    requires w in Words
    requires PatternAt(t, i, w)
    ensures TagAt(t, i) == w
  {
    var s := i + |Header|;
    var k := SkipSpaces(t, s);
    var j :| s <= j <= |t| && AllSpaces(t, s, j) && MatchesAt(t, j, w);
    assert 'A' <= w[0] <= 'Z' && Upper(t[j]) == w[0];
    if j < k {
      SkippedAreSpaces(t, s);
      SpaceIsNotLetter(t[j]);
    } else if j > k {
      assert false;
    }
    WordAtMatch(t, k, w);
  }

  /** The three words differ in their first letter, so at most one of them matches. */
  lemma WordAtMatch(t: string, j: nat, w: string)
    requires w in Words && MatchesAt(t, j, w)
    ensures WordAt(t, j) == w
  {
    assert AcceptWord[0] == 'A' && RejectWord[0] == 'R' && NeedMoreWord[0] == 'N';
  }

  /** The alternation yields one of the three words, which then matches at j, or "". */
  lemma WordAtIsWord(t: string, j: nat)
    ensures IsDecisionWord(WordAt(t, j))
    ensures WordAt(t, j) != NoWord ==> MatchesAt(t, j, WordAt(t, j))
  {
  }

  /** The greedy implementation of TagAt agrees with the pattern's meaning, both ways. */
  lemma TagAtMeaning(t: string, i: nat, w: string)
    requires w in Words
    ensures TagAt(t, i) == w <==> PatternAt(t, i, w)
  {
    if TagAt(t, i) == w {
      TagAtSound(t, i, w);
    }
    if PatternAt(t, i, w) {
      TagAtComplete(t, i, w);
    }
  }

  /** No pattern matches at positions lo .. hi - 1. */
  predicate NoTagBetween(t: string, lo: nat, hi: nat)
  {
    Search.NoMatchBetween(TagAt, t, lo, hi)
  }

  /**
   * The parser returns "" exactly when the pattern matches nowhere, and
   * otherwise the upper-cased word of the leftmost match.
   */
  lemma ParseDecisionLeftmost(text: string)
    ensures ParseDecision(text) == NoWord <==> NoTagBetween(text, 0, |text|)
    ensures ParseDecision(text) != NoWord ==>
      exists p :: 0 <= p < |text| && NoTagBetween(text, 0, p) && TagAt(text, p) == ParseDecision(text)
  {
    Search.LeftmostNone(TagAt, text, 0);
    if ParseDecision(text) != NoWord {
      var p := Search.LeftmostFirst(TagAt, text, 0);
    }
  }

  /** A verdict that is just the tag, in any mix of cases, parses to that word. */
  lemma ParseTaggedWord(w: string, spelled: string, gap: string)
    requires w in Words
    requires |spelled| == |w| && forall k :: 0 <= k < |w| ==> Upper(spelled[k]) == w[k]
    requires AllSpaces(gap, 0, |gap|)
    ensures ParseDecision(Header + gap + spelled) == w
  {
    var t := Header + gap + spelled;
    var s := |Header|;
    assert MatchesAt(t, 0, Header) by {
      forall k | 0 <= k < |Header| ensures Upper(t[k]) == Header[k] {
        assert t[k] == Header[k];
      }
    }
    assert AllSpaces(t, s, s + |gap|) by {
      forall m | s <= m < s + |gap| ensures IsSpace(t[m]) { assert t[m] == gap[m - s]; }
    }
    assert MatchesAt(t, s + |gap|, w) by {
      forall k | 0 <= k < |w| ensures Upper(t[s + |gap| + k]) == w[k] {
        assert t[s + |gap| + k] == spelled[k];
      }
    }
    assert PatternAt(t, 0, w);
    TagAtMeaning(t, 0, w);
    assert Search.Leftmost(TagAt, t, 0) == TagAt(t, 0);
  }

  /** The canonical spelling of each word survives upper-casing unchanged. */
  lemma WordsAreUpper(w: string)
    requires w in Words
    ensures forall k :: 0 <= k < |w| ==> Upper(w[k]) == w[k]
  {
  }

  /** `DECISION:` followed by whitespace and a word in its canonical spelling parses to that word. */
  lemma ParseSpelledTag(w: string, gap: string)
    requires w in Words
    requires AllSpaces(gap, 0, |gap|)
    ensures ParseDecision(Header + gap + w) == w
  {
    WordsAreUpper(w);
    ParseTaggedWord(w, w, gap);
  }

  /** No pattern can start on a whitespace character. */
  lemma NoTagAtSpace(t: string, i: nat)
    requires i >= |t| || IsSpace(t[i])
    ensures TagAt(t, i) == NoWord
  {
    if i < |t| {
      SpaceIsNotLetter(t[i]);
      assert !MatchesAt(t, i, Header) by { assert Header[0] == 'D'; }
    }
  }

  /** No pattern starts anywhere in a run of whitespace. */
  lemma NoTagInSpaces(t: string, lo: nat, hi: nat)
    requires lo <= hi <= |t|
    requires AllSpaces(t, lo, hi)
    ensures NoTagBetween(t, lo, hi)
  {
    forall p | lo <= p < hi ensures TagAt(t, p) == NoWord {
      NoTagAtSpace(t, p);
    }
  }

  /**
   * u is t from position a onwards with only whitespace left after it: the
   * situation of a string trimmed at both ends inside the original.
   */
  predicate EmbeddedAt(u: string, t: string, a: nat)
  {
    && a + |u| <= |t|
    && Agrees(u, t, a, 0)
    && SpacesFrom(t, a + |u|)
  }

  /**
   * u[q..] equals t[a + q .. a + |u|], character by character. Written by
   * recursion rather than as a slice equality so that EmbeddedAt brings no
   * quantifier into the embedding proofs; SliceAgrees links it to the slice.
   */
  predicate Agrees(u: string, t: string, a: nat, q: nat)
    decreases |u| - q
  {
    q >= |u| || (a + q < |t| && u[q] == t[a + q] && Agrees(u, t, a, q + 1))
  }

  lemma {:induction false} AgreesAt(u: string, t: string, a: nat, q: nat, m: nat)
    requires Agrees(u, t, a, q) && q <= m < |u|
    ensures a + m < |t| && u[m] == t[a + m]
    decreases m - q
  {
    if q < m {
      AgreesAt(u, t, a, q + 1, m);
    }
  }

  lemma {:induction false} SliceAgrees(t: string, a: nat, b: nat, q: nat)
    requires a <= b <= |t| && q <= b - a
    ensures Agrees(t[a..b], t, a, q)
    decreases b - a - q
  {
    if q < b - a {
      SliceAgrees(t, a, b, q + 1);
    }
  }

  /**
   * Everything in t from position i on is whitespace: AllSpaces(t, i, |t|)
   * by recursion, for the same reason as Agrees (AllSpacesFrom links them).
   */
  predicate SpacesFrom(t: string, i: nat)
    decreases |t| - i
  {
    i >= |t| || (IsSpace(t[i]) && SpacesFrom(t, i + 1))
  }

  lemma {:induction false} SpacesFromAt(t: string, i: nat, m: nat)
    requires SpacesFrom(t, i) && i <= m < |t|
    ensures IsSpace(t[m])
    decreases m - i
  {
    if i < m {
      SpacesFromAt(t, i + 1, m);
    }
  }

  lemma {:induction false} AllSpacesFrom(t: string, i: nat)
    requires i <= |t| && AllSpaces(t, i, |t|)
    ensures SpacesFrom(t, i)
    decreases |t| - i
  {
    if i < |t| {
      AllSpacesFrom(t, i + 1);
    }
  }

  /**
   * A pattern whose last character is not whitespace matches at p in u
   * exactly when it matches at a + p in t.
   */
  lemma MatchesEmbedded(u: string, t: string, a: nat, p: nat, pat: string)
    requires EmbeddedAt(u, t, a)
    requires pat != [] && !IsSpace(pat[|pat| - 1])
    ensures MatchesAt(u, p, pat) <==> MatchesAt(t, a + p, pat)
  {
    if MatchesAt(u, p, pat) {
      forall k | 0 <= k < |pat| ensures Upper(t[a + p + k]) == pat[k] {
        AgreesAt(u, t, a, 0, p + k);
      }
    }
    if MatchesAt(t, a + p, pat) {
      var last := a + p + |pat| - 1;
      assert Upper(t[last]) == pat[|pat| - 1];
      if last >= a + |u| {
        SpacesFromAt(t, a + |u|, last);
        SpaceIsNotLetter(t[last]);
      }
      forall k | 0 <= k < |pat| ensures Upper(u[p + k]) == pat[k] {
        AgreesAt(u, t, a, 0, p + k);
      }
    }
  }

  /** Whitespace skipping agrees in u and in t, as far as any word could match. */
  lemma SkipEmbedded(u: string, t: string, a: nat, j: nat)
    requires EmbeddedAt(u, t, a) && j <= |u|
    ensures SkipSpaces(u, j) < |u| ==> SkipSpaces(t, a + j) == a + SkipSpaces(u, j)
    ensures SkipSpaces(u, j) == |u| ==> SkipSpaces(t, a + j) == |t|
  {
    var ku, kt := SkipSpaces(u, j), SkipSpaces(t, a + j);
    SkippedAreSpaces(u, j);
    SkippedAreSpaces(t, a + j);
    if ku < |u| {
      AgreesAt(u, t, a, 0, ku);
      forall m | a + j <= m < a + ku ensures IsSpace(t[m]) {
        AgreesAt(u, t, a, 0, m - a);
      }
    } else {
      forall m | a + j <= m < a + |u| ensures IsSpace(t[m]) {
        AgreesAt(u, t, a, 0, m - a);
      }
      if kt < |t| {
        SpacesFromAt(t, a + |u|, kt);
      }
    }
  }

  /**
   * What WordAt returns is what the handler computes, `m[1].toUpperCase()`:
   * the captured characters, upper-cased.
   */
  lemma CaptureUpperCased(t: string, j: nat)
    ensures WordAt(t, j) != NoWord ==>
      j + |WordAt(t, j)| <= |t| && UpperString(t[j..j + |WordAt(t, j)|]) == WordAt(t, j)
  {
    var w := WordAt(t, j);
    if w != NoWord {
      UpperMatch(t, j, w);
    }
  }
  /** The alternation matches at j in u exactly as at a + j in t. */
  lemma WordEmbedded(u: string, t: string, a: nat, j: nat)
    requires EmbeddedAt(u, t, a)
    ensures WordAt(u, j) == WordAt(t, a + j)
  {
    assert MatchesAt(u, j, AcceptWord) == MatchesAt(t, a + j, AcceptWord) by {
      assert AcceptWord[5] == 'T';
      MatchesEmbedded(u, t, a, j, AcceptWord);
    }
    assert MatchesAt(u, j, RejectWord) == MatchesAt(t, a + j, RejectWord) by {
      assert RejectWord[5] == 'T';
      MatchesEmbedded(u, t, a, j, RejectWord);
    }
    assert MatchesAt(u, j, NeedMoreWord) == MatchesAt(t, a + j, NeedMoreWord) by {
      assert NeedMoreWord[8] == 'E';
      MatchesEmbedded(u, t, a, j, NeedMoreWord);
    }
  }

  /** After the `\s*` gap the alternation agrees in u and in t. */
  lemma SkippedWordEmbedded(u: string, t: string, a: nat, j: nat)
    requires EmbeddedAt(u, t, a) && j <= |u|
    ensures WordAt(u, SkipSpaces(u, j)) == WordAt(t, SkipSpaces(t, a + j))
  {
    var ku, kt := SkipSpaces(u, j), SkipSpaces(t, a + j);
    if ku < |u| {
      assert kt == a + ku by { SkipEmbedded(u, t, a, j); }
      WordEmbedded(u, t, a, ku);
    } else {
      assert kt == |t| by { SkipEmbedded(u, t, a, j); }
      NoWordAtEnd(u);
      NoWordAtEnd(t);
    }
  }

  /** Past the last character no word can match. */
  lemma NoWordAtEnd(t: string)
    ensures WordAt(t, |t|) == NoWord
  {
  }

  /** The pattern matches at p in u exactly as it does at a + p in t. */
  lemma TagEmbedded(u: string, t: string, a: nat, p: nat)
    requires EmbeddedAt(u, t, a) && p <= |u|
    ensures TagAt(u, p) == TagAt(t, a + p)
  {
    assert MatchesAt(u, p, Header) == MatchesAt(t, a + p, Header) by {
      assert Header[|Header| - 1] == ':';
      MatchesEmbedded(u, t, a, p, Header);
    }
    if MatchesAt(u, p, Header) {
      SkippedWordEmbedded(u, t, a, p + |Header|);
      SameTagAfterHeader(u, p, t, a + p);
    }
  }

  /** Once the header has matched, the tag is whatever the alternation finds after the gap. */
  lemma TagAfterHeader(t: string, i: nat)
    requires MatchesAt(t, i, Header)
    ensures TagAt(t, i) == WordAt(t, SkipSpaces(t, i + |Header|))
  {
  }

  /** Two header matches followed by the same word give the same tag. */
  lemma SameTagAfterHeader(u: string, p: nat, t: string, q: nat)
    requires MatchesAt(u, p, Header) && MatchesAt(t, q, Header)
    requires WordAt(u, SkipSpaces(u, p + |Header|)) == WordAt(t, SkipSpaces(t, q + |Header|))
    ensures TagAt(u, p) == TagAt(t, q)
  {
    TagAfterHeader(u, p);
    TagAfterHeader(t, q);
  }

  /**
   * Trimming the verdict before parsing, as the file-charges handler does,
   * never changes the decision found.
   */
  lemma ParseDecisionTrim(text: string)
    ensures ParseDecision(Trim(text)) == ParseDecision(text)
  {
    var a := SkipSpaces(text, 0);
    var b := TrimmedEnd(text, a, |text|);
    var u := text[a..b];
    SkippedAreSpaces(text, 0);
    DroppedAreSpaces(text, a, |text|);
    AllSpacesFrom(text, b);
    SliceAgrees(text, a, b, 0);
    forall q | 0 <= q < |u| ensures TagAt(u, q) == TagAt(text, a + q) {
      TagEmbedded(u, text, a, q);
    }
    NoTagInSpaces(text, b, |text|);
    Search.LeftmostShift(TagAt, u, text, a, 0);
    NoTagInSpaces(text, 0, a);
    Search.LeftmostSkip(TagAt, text, 0, a);
  }
}

=== FILE: wrappers.dfy ===
/** Optional values: the model's stand-in for JavaScript's `null`/`undefined`. */
module Wrappers {

  datatype Option<+T> = None | Some(value: T) {

    /** Returns the value in Some, or `default` for None (JavaScript's `??`). */
    function GetOr(default: T): (r: T)
      ensures Some? ==> r == value
      ensures None? ==> r == default
    {
      match this
      case Some(v) => v
      case None => default
    }
  }
}
